=== FILE: README.md ===
# News fetcher: source listing and the interactive search shell

A Dafny model of two pieces of the news-bias-analyzer tool:

- `get_article_sources` from `src/news_fetcher.py`. It takes the data of a
  NewsAPI search and returns the unique `source.name` values of its
  articles, sorted ascending.
- The read loop of `interactive_search` from `src/interactive_searcher.py`.
  Each turn does the following:
  - reads a topic line and strips it;
  - quits on `quit`, `exit` or `q` in any case;
  - warns and re-prompts on a blank topic;
  - otherwise reads a count line and settles on a count in 1..10, with
    5 as the default and a warning when the line was unusable;
  - calls `fetch_news`;
  - prints a summary (total, number fetched, unique sources) and every
    article numbered from 1, or "no articles";
  - ends with a separator rule.

The shell is a pure state machine driven by a finite script of input lines.

- `Shell.Step` is one pass of the loop body.
- `Shell.Run` is the whole session, as a trace of `Event`s: one event per
  message or block the shell prints.
- `Shell.InteractiveSearch` is the same loop written as a `while true` loop
  that breaks on a quit command, continues past a blank topic, and returns
  where input runs out. It is proved to produce the trace of `Run`.
- The network is a parameter, `Fetcher`. It maps (number of earlier
  fetches, topic, count) to the response body, or to `None` when
  `fetch_news` reports an error. A session can therefore get different
  answers to the same query.

The project has these modules:

- `Wrappers`: `Option`.
- `Ordering`: Python's string order (lexicographic by code point), strictly
  increasing lists, and sorted insertion.
- `Strings`: `str.strip()` with Python's whitespace set, and `str.lower()`.
- `Integers`: `int()` on decimal literals, with CPython's 4300-digit limit,
  and `str()` on integers.
- `News`: articles, responses and `get_article_sources`.
- `Shell`: the count logic, the report, the turn and the session.
- `Scenarios`: concrete turns worked through the model. They include the
  `technology` query for three articles that `src/news_fetcher.py` runs as
  its own demonstration, plus illustrative sources, counts and quit spellings.

## Model

| member | source | states |
|---|---|---|
| News.GetArticleSources | src/news_fetcher.py:94-115 | Data that is absent or has no `articles` gives `[]`. Otherwise the result is strictly increasing, so it is sorted and has no repeats. A name is in the result exactly when some article has that source name. The result is no longer than the article list. |
| News.CollectSources | src/news_fetcher.py:108-115 | The procedure as written collects the names into a set, then lists the set in ascending order. It returns exactly `GetArticleSources`. |
| News.Least | src/news_fetcher.py:115 | A non-empty set of names has a member smaller than every other member, which `sorted` puts first. |
| News.NoArticlesNoSources | src/news_fetcher.py:111-115 | An empty article list gives no sources. |
| News.SourcesDependOnlyOnNames | src/news_fetcher.py:111-115 | Two article lists with the same set of source names give the same output. |
| News.SourcesIgnoreOrder | src/news_fetcher.py:111-115 | A permutation of the articles gives the same sources. |
| News.SourcesIgnoreRepetition | src/news_fetcher.py:111-115 | Repeating the article list gives the same sources. |
| News.SourceListedOnce | src/news_fetcher.py:112-115 | Every source name among the articles appears in the output, and no name appears twice. |
| Ordering.Less | src/news_fetcher.py:115 | Definition: Python's `<` on `str`, which `sorted` uses. Strings compare code point by code point from the start, and a proper prefix sorts first. `LessTotal` and `LessTransitive` prove it a strict total order. |
| Ordering.StrictlyIncreasingUnique | src/news_fetcher.py:115 | Two strictly increasing lists with the same elements are equal, so `sorted(list(set))` is determined by the set alone. |
| Ordering.Insert | src/news_fetcher.py:113 | Adding a name to a sorted duplicate-free list keeps it sorted and duplicate-free. The elements become the old ones plus the name. The list is unchanged when the name was already present, and one longer otherwise. |
| Ordering.LessTotal | src/news_fetcher.py:115 | Python's string order is total on distinct strings. |
| Ordering.LessTransitive | src/news_fetcher.py:115 | Python's string order is transitive. |
| Strings.IsSpace | src/interactive_searcher.py:30 | Definition: the characters `str.strip()` removes, which are those `str.isspace()` accepts: U+0009-U+000D, U+001C-U+0020, U+0085, U+00A0, U+1680, U+2000-U+200A, U+2028, U+2029, U+202F, U+205F and U+3000. `Strip`, `StripSpan` and `StripPadded` are stated over it. |
| Strings.Strip | src/interactive_searcher.py:30 | The result has no leading or trailing whitespace. It is an infix of the line with only whitespace on either side, and it is empty exactly when the line is all whitespace. |
| Strings.StripPadded | src/interactive_searcher.py:44 | Stripping a stripped string padded with any whitespace gives the string back. |
| Strings.StripSpan | src/interactive_searcher.py:30 | A span with non-whitespace ends and only whitespace outside it is what `strip` keeps. |
| Strings.StripTrimmed | src/interactive_searcher.py:30 | A string with no surrounding whitespace is left alone by `strip`. |
| Strings.StripIdempotent | src/interactive_searcher.py:30 | Stripping twice is the same as stripping once. |
| Strings.LowerChar | src/interactive_searcher.py:33 | An ASCII capital becomes the letter 32 code points above it, and any other character is unchanged. No capital remains. |
| Strings.Lower | src/interactive_searcher.py:33 | `lower()` keeps the length, leaves no ASCII capital, and returns the input up to ASCII case. |
| Strings.LowerIgnoresCase | src/interactive_searcher.py:33 | Two strings lower to the same string exactly when they agree character by character up to ASCII case. `SameIgnoringAsciiCase` is defined without lowering. |
| Strings.LowerFixesLowercase | src/interactive_searcher.py:33 | A string with no ASCII capital is its own lowering. |
| Integers.ParseInt | src/interactive_searcher.py:45 | `int(num)` succeeds exactly on an optionally signed run of 1 to 4300 digits. Leading zeros count toward the limit; the sign does not. Anything longer is refused. A `-` sign gives a value of at most 0; otherwise the value is at least 0. |
| Integers.ParseShow | src/interactive_searcher.py:45 | `int(str(n)) == n` for every integer `n` of at most 4300 digits. The literal of a longer `n` is refused. |
| Integers.ShowParse | src/interactive_searcher.py:45 | `str(int(s)) == s` for every canonical literal: no `+`, no leading zero, no `-0`. |
| Integers.LeadingZerosValue | src/interactive_searcher.py:45 | Zeros in front of a digit string do not change its value. |
| Integers.SignedDigitsValue | src/interactive_searcher.py:45 | A sign (none, `+` or `-`) before a run of digits reads as the digits' value, negated after `-`, when there are at most 4300 digits; a longer run is refused. |
| Integers.SignedPaddedValue | src/interactive_searcher.py:45 | Every accepted form of an integer, meaning sign, leading zeros and `str(n)`, reads as `n` (negated after `-`) within 4300 digits, and is refused beyond. So `+3` and `03` read as 3 and `-0` as 0. |
| Shell.NormaliseCount | src/interactive_searcher.py:44-54 | The count is always in 1..10, and at most one warning is given. A warning always comes with the default 5. A blank line gives 5 with no warning. An integer in 1..10 is kept. Any other integer gives 5 with the range warning, and a non-integer gives 5 with the invalid-number warning. |
| Shell.CountOfLiteral | src/interactive_searcher.py:44-54 | A count typed as `str(v)`, with any whitespace around it, gives `v` when `v` is in 1..10. Any other `v` of at most 4300 digits gives 5 and the range warning. A longer one gives 5 and the invalid-number warning. |
| Shell.LongCountInvalid | src/interactive_searcher.py:44-54 | A count line of more than 4300 digits gives 5 and the invalid-number warning, whatever its value. |
| Shell.IsQuitCommand | src/interactive_searcher.py:33 | Definition: the stripped topic, lowered, is one of `quit`, `exit` and `q`. `QuitCommandIgnoresCase` states what this means without lowering. |
| Shell.QuitCommandIgnoresCase | src/interactive_searcher.py:33 | A topic is a quit command exactly when it equals `quit`, `exit` or `q` up to ASCII case. |
| Shell.Listing | src/interactive_searcher.py:70-72 | One block per article, in fetched order, numbered consecutively. |
| Shell.Report | src/interactive_searcher.py:59-75 | A single "no articles" message appears exactly when the data is absent or has no articles. Otherwise there is one summary and then one numbered block per article. The summary holds the total, the number fetched and `get_article_sources` of the data. Block `i + 1` shows article `i`. |
| Shell.FetchTurn | src/interactive_searcher.py:42-77 | A fetching turn prints at least three events and ends with the separator. It never quits. Its only fetch asks for the topic with the normalised count. |
| Shell.TurnShape | src/interactive_searcher.py:52-77 | Warnings, one fetch, a report and the separator together hold no quit, and the given fetch is the only fetch among them. |
| Shell.FetchTurnCounts | src/interactive_searcher.py:57-77 | A fetching turn holds exactly one fetch and exactly one separator. |
| Shell.Step | src/interactive_searcher.py:28-77 | One pass reads at most two lines. A quit command is exactly the case that prints only the farewell, and it stops. A blank topic warns and loops after one line. The loop stops exactly at end of input, on a quit, or when input ends at the count prompt. It reads two lines exactly when it loops past a non-blank topic. Those two lines are then the topic and the count of a fetching turn (`FetchTurn`), and the pass ends with the separator. |
| Shell.Run | src/interactive_searcher.py:28-77 | Definition: the `while True` loop as a recursion over the remaining input lines, one `Step` per pass, counting fetches. `RunCases` unfolds it by one turn. `InteractiveSearch` is proved to produce the same trace, and `FetchesAreValid`, `QuitOnlyAtEnd` and `SeparatorPerFetch` state its invariants. |
| Shell.RunCases | src/interactive_searcher.py:28-77 | The session unfolds by one turn in each of five cases: end of input, quit, blank topic, end of input at the count prompt, and a fetching turn. |
| Shell.QuitEndsRun | src/interactive_searcher.py:33-35 | A quit line ends the session with the farewell. No later line is read. |
| Shell.BlankTopicReprompts | src/interactive_searcher.py:38-40 | An all-whitespace topic line gives the empty-topic warning. The session then carries on from the next line with no count read and no fetch. |
| Shell.FetchingTurn | src/interactive_searcher.py:42-77 | A real topic reads the next line as the count. It prints the count warning if any, fetches once with the stripped topic, then prints the report and the separator. The session then continues with one more fetch counted. |
| Shell.FetchesAreValid | src/interactive_searcher.py:30-57 | Every fetch of a session asks for a non-empty, stripped topic that is not a quit command, with a count in 1..10. |
| Shell.QuitOnlyAtEnd | src/interactive_searcher.py:33-35 | A farewell, if printed, is the last event of the session. |
| Shell.SeparatorPerFetch | src/interactive_searcher.py:57-77 | A session prints as many separators as fetches. |
| Shell.InteractiveSearch | src/interactive_searcher.py:28-77 | The loop as written, with `break` on a quit command, `continue` past a blank topic and `return` where input runs out (the uncaught `EOFError`), produces exactly the trace of `Run` on the same input and network. |
| Scenarios.TwoSources | src/news_fetcher.py:111-115 | Articles whose source names are exactly two names `x < y` list `[x, y]`, however often each name occurs. |
| Scenarios.DuplicateSourceListedOnce | src/news_fetcher.py:111-115 | Sources BBC, CNN, BBC give `["BBC", "CNN"]`. |
| Scenarios.ReutersAndBbc | src/news_fetcher.py:111-115 | Sources Reuters, BBC, Reuters give `["BBC", "Reuters"]`. |
| Scenarios.CapitalQIsQuit | src/interactive_searcher.py:33 | A capital `Q` is a quit command. |
| Scenarios.QuitSpellings | src/interactive_searcher.py:30-35 | The lines `quit`, `Exit` and `  Q ` each end the session at once. |
| Scenarios.CountFifteen | src/interactive_searcher.py:48-50 | The count `15` gives 5 with the range warning. |
| Scenarios.CountAbc | src/interactive_searcher.py:52-54 | The count `abc` gives 5 with the invalid-number warning. |
| Scenarios.CountThree | src/interactive_searcher.py:44-45 | The count ` 3` gives 3 with no warning. |
| Scenarios.BlankCount | src/interactive_searcher.py:45 | An empty count line gives 5 with no warning. |
| Scenarios.CountPlusThree | src/interactive_searcher.py:44-50 | The count `+3` gives 3 with no warning. |
| Scenarios.CountZeroThree | src/interactive_searcher.py:44-50 | The count `03` gives 3 with no warning. |
| Scenarios.CountMinusZero | src/interactive_searcher.py:44-50 | The count `-0` is the integer 0, so it gives 5 with the range warning, not the invalid-number warning. |
| Scenarios.ReportOfThree | src/interactive_searcher.py:59-72 | Three articles from Reuters, BBC and Reuters, out of 100, produce this report: a summary listing `BBC, Reuters`, then blocks 1 to 3. |
| Scenarios.TechnologyTurn | src/interactive_searcher.py:42-77 | The demonstration query (topic `technology`, count `3`), with an illustrative response of three articles from Reuters, BBC and Reuters out of 100. It produces these events in order: a fetch for 3, the summary, three numbered blocks, the separator. |
| Scenarios.FailedTurn | src/interactive_searcher.py:57-77 | A failed request with a blank count fetches 5, prints "no articles", then the separator. |

## Left out

- `fetch_news` (src/news_fetcher.py:11-67) performs an HTTP request. It is the `Fetcher` parameter. Its `None` stands for a non-200 status, a network error, or a 200 whose body is not JSON. The `Fetch` event stands for the call and everything it prints: three lines before the request (lines 38, 39 and 52), then one success line (56), one or two error lines (61-62 or 66), or, for a 200 whose body is not JSON, the success line followed by the network-error line (56, then 66). That last path relies on requests 2.27 or later, whose `JSONDecodeError` is a `RequestException`. With earlier versions the decode error (a `ValueError`) escapes `fetch_news`, which the shell calls outside its `try` (src/interactive_searcher.py:57), and ends the shell; that crash is not modelled.
- The API's promise that at most `pageSize` articles come back is not assumed. No property depends on it.
- `display_article_summary` (src/news_fetcher.py:70-91) prints one article. It is the `ShowArticle` event, which carries the article; its crashes on missing keys are listed in the next line. An `author` key that is present but null prints `None`, not `Unknown`; the model records only `Option<string>`.
- Response bodies that lack `articles` or `totalResults` raise `KeyError` in the source, and so does an article without `source.name` (read at src/news_fetcher.py:113 and 85) or without any of `title`, `publishedAt`, `description` or `url` (src/news_fetcher.py:83, 84, 88, 89). A missing article field ends the shell inside the listing (src/interactive_searcher.py:71-72), after the summary, the earlier blocks and that article's `ARTICLE #i` header have been printed. These crashes are not modelled: `SearchResult` and `Article` always carry every field, so `Shell.Report` always prints every block.
- A `None` source name is not modelled. When it is the only name, `get_article_sources` returns `[None]` (src/news_fetcher.py:115), and the shell then fails in `', '.join` (src/interactive_searcher.py:66). Alongside other names, `sorted` raises `TypeError`.
- A falsy body (`{}`) and a body without `articles` both count as absent data (`None`) for `get_article_sources`.
- End of input at either prompt makes `input()` raise `EOFError`, which the shell does not catch. The model ends the trace there with nothing more printed.
- Input bytes that stdin cannot decode are not modelled: the model reads already decoded lines. With the default strict error handler, `input()` raises `UnicodeDecodeError`. At the count prompt (src/interactive_searcher.py:44) that is a `ValueError` caught at line 52, so the turn warns "Invalid number" and fetches 5. At the topic prompt (line 30, outside the `try`) it ends the shell.
- The banner, prompt texts, emoji and exact message strings are not modelled. Each message is one `Event` constructor.
- The `__main__` demonstration blocks and test_requests.py are not modelled.
- Integers.ParseInt: accepts only ASCII digits with an optional sign. Python's `int()` also accepts `_` between digits and non-ASCII decimal digits, which the model treats as invalid counts. The 4300-digit limit is CPython's default since 3.11 (and the matching 3.7-3.10 security releases). The source never changes it; older interpreters have no limit.
- Integers.ShowInt: total. Python's `str(n)` refuses integers of more than 4300 digits too; it only ever appears here to state round trips, and `ParseShow` states both sides of the limit.
- Strings.LowerChar: lowers ASCII capitals only; any other character, non-ASCII capitals included, is left unchanged.
- Strings.Lower: lowers ASCII letters only, through `LowerChar`. For the quit test this decides the same as Python's full `lower()`, because no non-ASCII character lowers to one of the letters q, u, i, t, e, x on its own. Topics are otherwise passed on unchanged.
- Strings are sequences of Unicode scalar values. Python strings can also hold lone surrogates, which are not modelled.

=== FILE: integers.dfy ===
/**
 Python's `int(text)` on an already stripped string, restricted to base-10
 ASCII literals: an optional `+` or `-` followed by one or more digits, and
 at most `MaxStrDigits` of them. `ShowInt` is `str(n)`, the canonical
 literal, used to state the round trip.
 */
module Integers {
  import opened Wrappers

  predicate IsDigit(c: char)
  {
    '0' <= c <= '9'
  }

  predicate AllDigits(s: string)
  {
    forall k :: 0 <= k < |s| ==> IsDigit(s[k])
  }

  function DigitValue(c: char): nat
    requires IsDigit(c)
  {
    c as int - '0' as int
  }

  /** The value of a digit string read most significant digit first. */
  function DigitsValue(s: string): nat
    requires AllDigits(s)
  {
    if |s| == 0 then 0 else DigitsValue(s[..|s| - 1]) * 10 + DigitValue(s[|s| - 1])
  }

  /**
   CPython's default limit on the number of digits in a string-to-integer
   conversion (`sys.int_info.default_max_str_digits`, Python 3.11 and the
   security releases of 3.7 to 3.10). Leading zeros count; the sign does not.
   */
  const MaxStrDigits: nat := 4300

  /**
   The strings `int()` accepts here: a sign at most, then at least one and
   at most `MaxStrDigits` digits.
   */
  predicate IsIntLiteral(s: string)
  {
    if |s| > 0 && (s[0] == '+' || s[0] == '-') then
      |s| > 1 && AllDigits(s[1..]) && |s| - 1 <= MaxStrDigits
    else
      |s| > 0 && AllDigits(s) && |s| <= MaxStrDigits
  }

  /** `int(s)`; `None` is the `ValueError` raised for anything else. */
  function ParseInt(s: string): (r: Option<int>)
    ensures r.Some? <==> IsIntLiteral(s)
    ensures |s| > MaxStrDigits + 1 ==> r.None?
    ensures r.Some? && s[0] == '-' ==> r.value <= 0
    ensures r.Some? && s[0] != '-' ==> r.value >= 0
  {
    if |s| > 0 && (s[0] == '+' || s[0] == '-') then
      if |s| > 1 && AllDigits(s[1..]) && |s| - 1 <= MaxStrDigits then
        var v: int := DigitsValue(s[1..]);
        Some(if s[0] == '-' then -v else v)
      else None
    else if |s| > 0 && AllDigits(s) && |s| <= MaxStrDigits then Some(DigitsValue(s))
    else None
  }

  function DigitChar(d: nat): (c: char)
    requires d < 10
    ensures IsDigit(c) && DigitValue(c) == d
  {
    ('0' as int + d) as char
  }

  /** `str(n)` for a natural number: decimal digits without leading zeros. */
  function ShowNat(n: nat): (r: string)
    ensures |r| > 0 && AllDigits(r)
    ensures r[0] != '0' || n == 0
  {
    if n < 10 then [DigitChar(n)] else ShowNat(n / 10) + [DigitChar(n % 10)]
  }

  /** `str(n)`. */
  function ShowInt(n: int): (r: string)
    ensures |r| > 0
  {
    if n < 0 then "-" + ShowNat(-n) else ShowNat(n)
  }

  lemma {:induction false} ShowNatValue(n: nat)
    ensures DigitsValue(ShowNat(n)) == n
    decreases n
  {
    if n >= 10 {
      var s := ShowNat(n);
      assert s[..|s| - 1] == ShowNat(n / 10);
      ShowNatValue(n / 10);
    }
  }

  function Magnitude(n: int): nat
  {
    if n < 0 then -n else n
  }

  /**
   `int(str(n)) == n` whenever `n` has at most `MaxStrDigits` digits; a
   longer literal is refused.
   */
  lemma ParseShow(n: int)
    ensures |ShowNat(Magnitude(n))| <= MaxStrDigits ==> ParseInt(ShowInt(n)) == Some(n)
    ensures |ShowNat(Magnitude(n))| > MaxStrDigits ==> ParseInt(ShowInt(n)) == None
  {
    var d := ShowNat(Magnitude(n));
    ShowNatValue(Magnitude(n));
    assert IsDigit(d[0]);
    if n < 0 {
      var s := ShowInt(n);
      assert s == "-" + d;
      assert s[0] == '-' && s[1..] == d && |s| == |d| + 1;
    } else {
      assert ShowInt(n) == d;
    }
  }

  /** A digit string not starting with `0` has a positive value. */
  lemma {:induction false} LeadingNonZeroPositive(s: string)
    requires AllDigits(s) && |s| > 0 && s[0] != '0'
    ensures DigitsValue(s) >= 1
    decreases |s|
  {
    if |s| > 1 {
      LeadingNonZeroPositive(s[..|s| - 1]);
    }
  }

  /** `str(int(s)) == s` for a digit string without leading zeros. */
  lemma {:induction false} ShowDigitsValue(s: string)
    requires AllDigits(s) && |s| > 0 && (s[0] != '0' || |s| == 1)
    ensures ShowNat(DigitsValue(s)) == s
    decreases |s|
  {
    if |s| > 1 {
      var p := s[..|s| - 1];
      LeadingNonZeroPositive(p);
      ShowDigitsValue(p);
      assert s == p + [s[|s| - 1]];
    }
  }

  /**
   `str(int(s)) == s` exactly for the canonical literals: no `+`, no leading
   zero, no `-0`.
   */
  lemma ShowParse(s: string)
    requires IsIntLiteral(s)
    requires s[0] != '+'
    requires s[0] == '-' ==> s[1] != '0'
    requires s[0] != '-' ==> s[0] != '0' || |s| == 1
    ensures ShowInt(ParseInt(s).value) == s
  {
    if s[0] == '-' {
      ShowDigitsValue(s[1..]);
      LeadingNonZeroPositive(s[1..]);
      assert s == "-" + s[1..];
    } else {
      ShowDigitsValue(s);
    }
  }

  predicate AllZeros(z: string)
  {
    forall k :: 0 <= k < |z| ==> z[k] == '0'
  }

  /** Leading zeros do not change the value of a digit string. */
  lemma {:induction false} LeadingZerosValue(z: string, d: string)
    requires AllZeros(z) && AllDigits(d)
    ensures AllDigits(z + d)
    ensures DigitsValue(z + d) == DigitsValue(d)
    decreases |d| + |z|
  {
    var s := z + d;
    assert AllDigits(s) by {
      assert forall k :: 0 <= k < |s| ==> s[k] == if k < |z| then z[k] else d[k - |z|];
    }
    if |d| > 0 {
      assert s[..|s| - 1] == z + d[..|d| - 1];
      LeadingZerosValue(z, d[..|d| - 1]);
    } else if |z| > 0 {
      assert s == z && z[..|z| - 1] + [] == z[..|z| - 1];
      LeadingZerosValue(z[..|z| - 1], []);
    }
  }

  /** A sign (none, `+` or `-`) before a digit string: `int()` reads the digits and applies the sign. */
  lemma SignedDigitsValue(sign: string, body: string)
    requires sign == "" || sign == "+" || sign == "-"
    requires |body| > 0 && AllDigits(body)
    ensures |body| <= MaxStrDigits ==>
              ParseInt(sign + body) == Some(if sign == "-" then -(DigitsValue(body) as int) else DigitsValue(body))
    ensures |body| > MaxStrDigits ==> ParseInt(sign + body) == None
  {
    assert IsDigit(body[0]);
    var s := sign + body;
    if sign == "" {
      assert s == body;
    } else {
      assert s[0] == sign[0] && s[1..] == body && |s| == |body| + 1;
    }
  }

  /**
   Every literal `int()` accepts here is a sign (none, `+` or `-`), some zeros
   and `str(n)`: it reads as `n`, negated after a `-`, so `+3`, `03` and
   `-0` read as 3, 3 and 0. With more than `MaxStrDigits` digits it is refused.
   */
  lemma SignedPaddedValue(sign: string, zeros: string, n: nat)
    requires sign == "" || sign == "+" || sign == "-"
    requires AllZeros(zeros)
    ensures |zeros| + |ShowNat(n)| <= MaxStrDigits ==>
              ParseInt(sign + (zeros + ShowNat(n))) == Some(if sign == "-" then -(n as int) else n)
    ensures |zeros| + |ShowNat(n)| > MaxStrDigits ==> ParseInt(sign + (zeros + ShowNat(n))) == None
  {
    ShowNatValue(n);
    LeadingZerosValue(zeros, ShowNat(n));
    SignedDigitsValue(sign, zeros + ShowNat(n));
  }
}

=== FILE: news.dfy ===
/**
 The fetched data of src/news_fetcher.py and `get_article_sources`, the one
 piece of that file that computes rather than performs I/O.
 */
module News {
  import opened Wrappers
  import opened Ordering

  /**
   One element of the response's `articles` list. `author` is `None` when the
   key is missing from the article.
   */
  datatype Article = Article(
    title: string,
    publishedAt: string,
    sourceName: string,
    author: Option<string>,
    description: string,
    url: string)

  /** A successful response body: `totalResults` and the `articles` list. */
  datatype SearchResult = SearchResult(totalResults: int, articles: seq<Article>)

  /** The set built by the loop of `get_article_sources`: every `source.name`. */
  ghost function SourceNames(articles: seq<Article>): set<string>
  {
    set a | a in articles :: a.sourceName
  }

  /**
   `get_article_sources`. `None` stands for data that is falsy or has no
   `articles` entry; the names are gathered one article at a time, in order.
   */
  function GetArticleSources(data: Option<seq<Article>>): (r: seq<string>)
    ensures data.None? ==> r == []
    ensures StrictlyIncreasing(r)
    ensures data.Some? ==> |r| <= |data.value|
    ensures data.Some? ==> forall y :: y in r <==> y in SourceNames(data.value)
  {
    match data
    case None => []
    case Some(articles) => SortedNames(articles)
  }

  function SortedNames(articles: seq<Article>): (r: seq<string>)
    ensures StrictlyIncreasing(r)
    ensures |r| <= |articles|
    ensures forall y :: y in r <==> y in SourceNames(articles)
  {
    if |articles| == 0 then []
    else
      var init := articles[..|articles| - 1];
      var last := articles[|articles| - 1];
      assert articles == init + [last];
      assert SourceNames(articles) == SourceNames(init) + {last.sourceName};
      Insert(SortedNames(init), last.sourceName)
  }

  /** An empty article list gives no sources. */
  lemma NoArticlesNoSources()
    ensures GetArticleSources(Some([])) == []
  {
  }

  /**
   The output depends only on the set of source names: reordering the
   articles, repeating them or swapping in others with the same names does
   not change it.
   */
  lemma SourcesDependOnlyOnNames(a1: seq<Article>, a2: seq<Article>)
    requires SourceNames(a1) == SourceNames(a2)
    ensures GetArticleSources(Some(a1)) == GetArticleSources(Some(a2))
  {
    StrictlyIncreasingUnique(GetArticleSources(Some(a1)), GetArticleSources(Some(a2)));
  }

  /** A permutation of the articles has the same sources. */
  lemma SourcesIgnoreOrder(a1: seq<Article>, a2: seq<Article>)
    requires multiset(a1) == multiset(a2)
    ensures GetArticleSources(Some(a1)) == GetArticleSources(Some(a2))
  {
    forall a ensures a in a1 <==> a in a2 {
      assert a in a1 <==> a in multiset(a1);
      assert a in a2 <==> a in multiset(a2);
    }
    SourcesDependOnlyOnNames(a1, a2);
  }

  /** Listing the articles twice gives the same sources as listing them once. */
  lemma SourcesIgnoreRepetition(a: seq<Article>)
    ensures GetArticleSources(Some(a + a)) == GetArticleSources(Some(a))
  {
    assert SourceNames(a + a) == SourceNames(a);
    SourcesDependOnlyOnNames(a + a, a);
  }

  /** Every name that occurs among the articles occurs in the output exactly once. */
  lemma SourceListedOnce(a: seq<Article>, name: string)
    requires name in SourceNames(a)
    ensures exists i :: 0 <= i < |GetArticleSources(Some(a))| && GetArticleSources(Some(a))[i] == name
    ensures forall i, j ::
      0 <= i < j < |GetArticleSources(Some(a))| ==>
        GetArticleSources(Some(a))[i] != GetArticleSources(Some(a))[j]
  {
    var r := GetArticleSources(Some(a));
    forall i, j | 0 <= i < j < |r|
      ensures r[i] != r[j]
    {
      LessIrreflexive(r[i]);
    }
  }

  /**
   `get_article_sources` as the source writes it: the names go into a set,
   and the set is listed in ascending order (here by taking the least
   remaining name each round). Agrees with `GetArticleSources`.
   */
  method CollectSources(data: Option<seq<Article>>) returns (names: seq<string>)
    ensures names == GetArticleSources(data)
  {
    if data.None? {
      return [];
    }
    var articles := data.value;
    var sources: set<string> := {};
    var i := 0;
    while i < |articles|
      invariant 0 <= i <= |articles|
      invariant sources == SourceNames(articles[..i])
    {
      assert articles[..i + 1] == articles[..i] + [articles[i]];
      sources := sources + {articles[i].sourceName};
      i := i + 1;
    }
    assert articles[..i] == articles;
    names := [];
    var rest := sources;
    while rest != {}
      invariant rest <= sources
      invariant StrictlyIncreasing(names)
      invariant forall y :: y in names <==> y in sources && y !in rest
      invariant forall y, z :: y in names && z in rest ==> Less(y, z)
      decreases |rest|
    {
      LeastExists(rest);
      var m :| m in rest && forall z :: z in rest && z != m ==> Less(m, z);
      names := names + [m];
      rest := rest - {m};
    }
    StrictlyIncreasingUnique(names, GetArticleSources(data));
  }

  lemma LeastExists(s: set<string>)
    requires s != {}
    ensures exists m :: m in s && forall z :: z in s && z != m ==> Less(m, z)
  {
    var m := Least(s);
  }

  /** The smallest name of a non-empty set under Python's string order. */
  ghost function Least(s: set<string>): (m: string)
    requires s != {}
    ensures m in s
    ensures forall z :: z in s && z != m ==> Less(m, z)
    decreases |s|
  {
    var x :| x in s;
    if s == {x} then x
    else
      var m := Least(s - {x});
      if Less(x, m) then
        assert forall z :: z in s && z != x && z != m ==> Less(x, z) by {
          forall z | z in s && z != x && z != m
            ensures Less(x, z)
          {
            LessTransitive(x, m, z);
          }
        }
        x
      else
        LessTotal(x, m);
        m
  }
}

=== FILE: ordering.dfy ===
/**
 Python's ordering of `str` values: lexicographic comparison of code points,
 where a proper prefix sorts first. `sorted` on a list of strings uses it.
 */
module Ordering {

  /** `a < b` on Python strings. */
  predicate Less(a: string, b: string)
    decreases |a|
  {
    if |a| == 0 then |b| > 0
    else if |b| == 0 then false
    else if a[0] != b[0] then a[0] < b[0]
    else Less(a[1..], b[1..])
  }

  lemma {:induction false} LessIrreflexive(a: string)
    ensures !Less(a, a)
    decreases |a|
  {
    if |a| > 0 {
      LessIrreflexive(a[1..]);
    }
  }

  lemma {:induction false} LessTransitive(a: string, b: string, c: string)
    requires Less(a, b) && Less(b, c)
    ensures Less(a, c)
    decreases |a|
  {
    if |a| > 0 && a[0] == b[0] && b[0] == c[0] {
      LessTransitive(a[1..], b[1..], c[1..]);
    }
  }

  lemma LessAsymmetric(a: string, b: string)
    requires Less(a, b)
    ensures !Less(b, a)
  {
    if Less(b, a) {
      LessTransitive(a, b, a);
      LessIrreflexive(a);
    }
  }

  /** Any two distinct strings are ordered one way or the other. */
  lemma {:induction false} LessTotal(a: string, b: string)
    requires a != b
    ensures Less(a, b) || Less(b, a)
    decreases |a|
  {
    if |a| > 0 && |b| > 0 && a[0] == b[0] {
      assert a == [a[0]] + a[1..] && b == [b[0]] + b[1..];
      LessTotal(a[1..], b[1..]);
    }
  }

  /** Sorted ascending with no repeated element. */
  predicate StrictlyIncreasing(s: seq<string>)
  {
    forall i, j :: 0 <= i < j < |s| ==> Less(s[i], s[j])
  }

  /**
   A strictly increasing sequence is determined by its elements: this is what
   makes `sorted(list(some_set))` depend on the set alone.
   */
  lemma {:induction false} StrictlyIncreasingUnique(s: seq<string>, t: seq<string>)
    requires StrictlyIncreasing(s) && StrictlyIncreasing(t)
    requires forall x :: x in s <==> x in t
    ensures s == t
    decreases |s|
  {
    assert |s| > 0 ==> s[0] in s;
    assert |t| > 0 ==> t[0] in t;
    if |s| > 0 {
      assert s[0] in s;
      assert |t| > 0;
      assert t[0] in t;
      var m :| 0 <= m < |t| && t[m] == s[0];
      var k :| 0 <= k < |s| && s[k] == t[0];
      if m > 0 && k > 0 {
        LessAsymmetric(t[0], s[0]);
        assert false;
      }
      assert s[0] == t[0];
      forall x
        ensures x in s[1..] <==> x in t[1..]
      {
        if x in s[1..] {
          var i :| 0 <= i < |s[1..]| && s[1..][i] == x;
          assert Less(s[0], s[i + 1]);
          LessIrreflexive(x);
          assert x in t && x != t[0];
        }
        if x in t[1..] {
          var i :| 0 <= i < |t[1..]| && t[1..][i] == x;
          assert Less(t[0], t[i + 1]);
          LessIrreflexive(x);
          assert x in s && x != s[0];
        }
      }
      StrictlyIncreasingUnique(s[1..], t[1..]);
      assert s == [s[0]] + s[1..] && t == [t[0]] + t[1..];
    }
  }

  /**
   Adds `x` to a strictly increasing sequence, keeping it strictly increasing:
   the sorted form of `set.add`.
   */
  function Insert(xs: seq<string>, x: string): (r: seq<string>)
    requires StrictlyIncreasing(xs)
    ensures StrictlyIncreasing(r)
    ensures forall y :: y in r <==> y in xs || y == x
    ensures x in xs ==> r == xs
    ensures x !in xs ==> |r| == |xs| + 1
  {
    if |xs| == 0 then [x]
    else if x == xs[0] then xs
    else if Less(x, xs[0]) then
      assert forall j :: 0 <= j < |xs| ==> Less(x, xs[j]) by {
        forall j | 0 < j < |xs| {
          LessTransitive(x, xs[0], xs[j]);
        }
      }
      LessIrreflexive(x);
      [x] + xs
    else
      LessTotal(x, xs[0]);
      var rest := Insert(xs[1..], x);
      assert forall j :: 0 <= j < |rest| ==> Less(xs[0], rest[j]) by {
        forall j | 0 <= j < |rest|
          ensures Less(xs[0], rest[j])
        {
          assert rest[j] in rest;
          if rest[j] != x {
            var i :| 0 <= i < |xs[1..]| && xs[1..][i] == rest[j];
            assert Less(xs[0], xs[i + 1]);
          }
        }
      }
      assert xs == [xs[0]] + xs[1..];
      [xs[0]] + rest
  }
}

=== FILE: scenarios.dfy ===
/**
 Concrete turns and inputs worked through the model one fact at a time: the
 `technology` query for three articles that src/news_fetcher.py runs as its
 own demonstration, and a handful of illustrative sources, counts and quit
 spellings.
 */
module Scenarios {
  import opened Wrappers
  import opened Ordering
  import opened Strings
  import opened Integers
  import opened News
  import opened Shell

  function Story(source: string): Article
  {
    Article("title", "2024-01-01T00:00:00Z", source, None, "description", "https://example.com")
  }

  /** Articles whose source names are exactly two names in order list those two. */
  lemma TwoSources(a: seq<Article>, x: string, y: string)
    requires Less(x, y)
    requires forall n :: n in SourceNames(a) <==> n == x || n == y
    ensures GetArticleSources(Some(a)) == [x, y]
  {
    assert StrictlyIncreasing([x, y]);
    StrictlyIncreasingUnique(GetArticleSources(Some(a)), [x, y]);
  }

  /** Sources `BBC, CNN, BBC` are listed as `BBC, CNN`. */
  lemma DuplicateSourceListedOnce()
    ensures GetArticleSources(Some([Story("BBC"), Story("CNN"), Story("BBC")])) == ["BBC", "CNN"]
  {
    var a := [Story("BBC"), Story("CNN"), Story("BBC")];
    assert Less("BBC", "CNN");
    assert a[0] in a && a[1] in a;
    TwoSources(a, "BBC", "CNN");
  }

  /** Sources `Reuters, BBC, Reuters` are listed as `BBC, Reuters`. */
  lemma ReutersAndBbc()
    ensures GetArticleSources(Some([Story("Reuters"), Story("BBC"), Story("Reuters")])) == ["BBC", "Reuters"]
  {
    var a := [Story("Reuters"), Story("BBC"), Story("Reuters")];
    assert Less("BBC", "Reuters");
    assert a[0] in a && a[1] in a;
    TwoSources(a, "BBC", "Reuters");
  }

  lemma QuitIsQuit()
    ensures IsQuitCommand(Strip("quit"))
  {
    StripTrimmed("quit");
    assert IsQuitCommand("quit") by {
      QuitCommandIgnoresCase("quit");
      assert "quit" in QuitWords && SameIgnoringAsciiCase("quit", "quit");
    }
  }

  lemma ExitIsQuit()
    ensures IsQuitCommand(Strip("Exit"))
  {
    StripTrimmed("Exit");
    assert IsQuitCommand("Exit") by {
      QuitCommandIgnoresCase("Exit");
      assert "exit" in QuitWords && SameIgnoringAsciiCase("Exit", "exit");
    }
  }

  /** A capital `Q` is a quit command: the test lowers the topic first. */
  lemma CapitalQIsQuit()
    ensures IsQuitCommand("Q")
  {
    QuitCommandIgnoresCase("Q");
    assert "q" in QuitWords && SameIgnoringAsciiCase("Q", "q");
  }

  lemma PaddedQIsQuit()
    ensures IsQuitCommand(Strip("  Q "))
  {
    CapitalQIsQuit();
    StripSpan("  Q ", 2, 3);
    assert "  Q "[2..3] == "Q";
  }

  /** `quit`, `Exit` and `Q`, with or without surrounding blanks, end the session at once. */
  lemma QuitSpellings(rest: seq<string>, fetch: Fetcher)
    ensures Run(["quit"] + rest, fetch, 0) == [Quit]
    ensures Run(["Exit"] + rest, fetch, 0) == [Quit]
    ensures Run(["  Q "] + rest, fetch, 0) == [Quit]
  {
    QuitIsQuit();
    QuitEndsRun("quit", rest, fetch, 0);
    ExitIsQuit();
    QuitEndsRun("Exit", rest, fetch, 0);
    PaddedQIsQuit();
    QuitEndsRun("  Q ", rest, fetch, 0);
  }

  /** Count `15` is an integer out of range: 5, with the range warning. */
  lemma CountFifteen()
    ensures NormaliseCount("15") == CountReading(5, [WarnRange])
  {
    StripTrimmed("15");
    ParseFifteen();
  }

  lemma ParseFifteen()
    ensures ParseInt("15") == Some(15)
  {
    ParseShow(15);
    assert ShowInt(15) == "15";
  }

  /** Count `abc` is not an integer: 5, with the invalid-number warning. */
  lemma CountAbc()
    ensures NormaliseCount("abc") == CountReading(5, [WarnInvalid])
  {
    StripTrimmed("abc");
    ParseAbc();
  }

  lemma ParseAbc()
    ensures ParseInt("abc") == None
  {
    assert !IsDigit("abc"[0]);
  }

  lemma ParseThree()
    ensures ParseInt("3") == Some(3)
  {
    ParseShow(3);
    assert ShowInt(3) == "3";
  }

  /** Count ` 3` is read as 3 without a warning. */
  lemma CountThree()
    ensures NormaliseCount(" 3") == CountReading(3, [])
  {
    StripSpan(" 3", 1, 2);
    assert " 3"[1..2] == "3";
    ParseThree();
  }

  /** Count `3` is read as 3 without a warning. */
  lemma CountThreePlain()
    ensures NormaliseCount("3") == CountReading(3, [])
  {
    StripTrimmed("3");
    ParseThree();
  }

  /** Count `+3` is read as 3 without a warning: `int()` accepts a plus sign. */
  lemma CountPlusThree()
    ensures NormaliseCount("+3") == CountReading(3, [])
  {
    StripTrimmed("+3");
    SignedPaddedValue("+", "", 3);
    assert "+" + ("" + ShowNat(3)) == "+3";
  }

  /** Count `03` is read as 3 without a warning: `int()` accepts leading zeros. */
  lemma CountZeroThree()
    ensures NormaliseCount("03") == CountReading(3, [])
  {
    StripTrimmed("03");
    SignedPaddedValue("", "0", 3);
    assert "" + ("0" + ShowNat(3)) == "03";
  }

  /** Count `-0` is the integer 0, so it draws the range warning, not the invalid-number one. */
  lemma CountMinusZero()
    ensures NormaliseCount("-0") == CountReading(5, [WarnRange])
  {
    StripTrimmed("-0");
    SignedPaddedValue("-", "", 0);
    assert "-" + ("" + ShowNat(0)) == "-0";
  }

  /** The events of a fetching turn, spelled out. */
  lemma FetchTurnEvents(topic: string, countLine: string, fetch: Fetcher, fetches: nat)
    ensures FetchTurn(topic, countLine, fetch, fetches)
      == NormaliseCount(countLine).warnings + [Fetch(topic, NormaliseCount(countLine).count)]
         + Report(fetch(fetches, topic, NormaliseCount(countLine).count)) + [Separator]
  {
  }

  /** The report of any three fetched articles. */
  lemma ReportOfThreeArticles(total: int, articles: seq<Article>)
    requires |articles| == 3
    ensures Report(Some(SearchResult(total, articles)))
      == [ShowResults(total, 3, GetArticleSources(Some(articles))),
          ShowArticle(1, articles[0]), ShowArticle(2, articles[1]), ShowArticle(3, articles[2])]
  {
    var r := Report(Some(SearchResult(total, articles)));
    assert |r| == 4;
    assert r == [r[0], r[1], r[2], r[3]];
    assert r[1] == ShowArticle(1, articles[0]);
    assert r[2] == ShowArticle(2, articles[1]);
    assert r[3] == ShowArticle(3, articles[2]);
  }

  lemma ReportOfThree()
    ensures Report(Some(SearchResult(100, [Story("Reuters"), Story("BBC"), Story("Reuters")])))
      == [ShowResults(100, 3, ["BBC", "Reuters"]),
          ShowArticle(1, Story("Reuters")), ShowArticle(2, Story("BBC")), ShowArticle(3, Story("Reuters"))]
  {
    var a := [Story("Reuters"), Story("BBC"), Story("Reuters")];
    ReutersAndBbc();
    ReportOfThreeArticles(100, a);
  }

  /** A turn whose count line is read without a warning: fetch, report, separator. */
  lemma QuietFetchTurn(topic: string, countLine: string, fetch: Fetcher, n: int, report: seq<Event>)
    requires NormaliseCount(countLine) == CountReading(n, [])
    requires Report(fetch(0, topic, n)) == report
    ensures FetchTurn(topic, countLine, fetch, 0) == [Fetch(topic, n)] + report + [Separator]
  {
    FetchTurnEvents(topic, countLine, fetch, 0);
    assert [] + [Fetch(topic, n)] == [Fetch(topic, n)];
  }

  /**
   Topic `technology` with count `3`, and a response of three articles from
   Reuters, BBC and Reuters out of 100 available: the fetch asks for 3, the
   summary lists `BBC, Reuters`, three numbered blocks follow, then the
   separator.
   */
  lemma TechnologyTurn(fetch: Fetcher)
    requires fetch(0, "technology", 3)
      == Some(SearchResult(100, [Story("Reuters"), Story("BBC"), Story("Reuters")]))
    ensures FetchTurn("technology", "3", fetch, 0)
      == [Fetch("technology", 3),
          ShowResults(100, 3, ["BBC", "Reuters"]),
          ShowArticle(1, Story("Reuters")), ShowArticle(2, Story("BBC")), ShowArticle(3, Story("Reuters")),
          Separator]
  {
    var a := [Story("Reuters"), Story("BBC"), Story("Reuters")];
    CountThreePlain();
    ReportOfThree();
    QuietFetchTurn("technology", "3", fetch, 3, Report(Some(SearchResult(100, a))));
    Framed(Fetch("technology", 3), ShowResults(100, 3, ["BBC", "Reuters"]),
           ShowArticle(1, Story("Reuters")), ShowArticle(2, Story("BBC")), ShowArticle(3, Story("Reuters")),
           Separator);
  }

  /** A one-element prefix and suffix around four events, as one six-event list. */
  lemma Framed(f: Event, a: Event, b: Event, c: Event, d: Event, z: Event)
    ensures [f] + [a, b, c, d] + [z] == [f, a, b, c, d, z]
  {
  }

  /** A blank count line gives the default silently. */
  lemma BlankCount()
    ensures NormaliseCount([]) == CountReading(5, [])
  {
  }

  /** A failed request (a 404, say) with a blank count: default 5, "no articles", separator. */
  lemma FailedTurn(topic: string, fetch: Fetcher)
    requires fetch(0, topic, 5) == None
    ensures FetchTurn(topic, "", fetch, 0) == [Fetch(topic, 5), NoResults, Separator]
  {
    BlankCount();
    FetchTurnEvents(topic, "", fetch, 0);
  }
}

=== FILE: shell.dfy ===
/**
 The read loop of `interactive_search` in src/interactive_searcher.py, driven
 by a finite script of input lines. Console output becomes a trace of
 events; the network call is an oracle parameter.
 */
module Shell {
  import opened Wrappers
  import opened Strings
  import opened Integers
  import opened News

  /** The article count used when none, or an unusable one, is given. */
  const DefaultCount: int := 5
  const MinCount: int := 1
  const MaxCount: int := 10

  /** The commands that end the session, compared after lowering. */
  const QuitWords: seq<string> := ["quit", "exit", "q"]

  /** The topic line, already stripped, asks to leave. */
  predicate IsQuitCommand(topic: string)
  {
    Lower(topic) in QuitWords
  }

  /**
   A topic is a quit command exactly when it is one of the quit words up to
   ASCII case; so only one- and four-letter topics can be.
   */
  lemma QuitCommandIgnoresCase(topic: string)
    ensures IsQuitCommand(topic) <==> exists w :: w in QuitWords && SameIgnoringAsciiCase(topic, w)
  {
    forall w | w in QuitWords
      ensures Lower(w) == w
    {
      LowerFixesLowercase(w);
    }
    if IsQuitCommand(topic) {
      LowerIgnoresCase(topic, Lower(topic));
    }
    forall w | w in QuitWords && SameIgnoringAsciiCase(topic, w)
      ensures IsQuitCommand(topic)
    {
      LowerIgnoresCase(topic, w);
    }
  }

  /** What the shell shows the user, one event per message or block. */
  datatype Event =
    | Quit                      // farewell, then the loop ends
    | WarnEmptyTopic            // "Please enter a topic", then re-prompt
    | WarnRange                 // count outside 1..10, using the default
    | WarnInvalid               // count is not an integer, using the default
    | Fetch(topic: string, count: int)
    | NoResults                 // no data, or data with no articles
    | ShowResults(totalResults: int, fetched: nat, sources: seq<string>)
    | ShowArticle(number: nat, article: Article)
    | Separator                 // the rule printed at the end of a turn

  /** The article count chosen from the second line of a turn, and any warning printed. */
  datatype CountReading = CountReading(count: int, warnings: seq<Event>)

  /**
   The count logic of the turn: the line is stripped; empty means the
   default; an integer in range is kept; any other integer, or text that is
   not an integer, falls back to the default with a warning.
   */
  function NormaliseCount(line: string): (c: CountReading)
    ensures MinCount <= c.count <= MaxCount
    ensures c.warnings in {[], [WarnRange], [WarnInvalid]}
    ensures c.warnings != [] ==> c.count == DefaultCount
    ensures Strip(line) == [] ==> c == CountReading(DefaultCount, [])
    ensures (ParseInt(Strip(line)).Some? && MinCount <= ParseInt(Strip(line)).value <= MaxCount)
              ==> c == CountReading(ParseInt(Strip(line)).value, [])
    ensures (ParseInt(Strip(line)).Some? && !(MinCount <= ParseInt(Strip(line)).value <= MaxCount))
              ==> c == CountReading(DefaultCount, [WarnRange])
    ensures (Strip(line) != [] && ParseInt(Strip(line)).None?)
              ==> c == CountReading(DefaultCount, [WarnInvalid])
  {
    var num := Strip(line);
    if num == [] then CountReading(DefaultCount, [])
    else
      match ParseInt(num)
      case None => CountReading(DefaultCount, [WarnInvalid])
      case Some(n) =>
        if n < MinCount || n > MaxCount then CountReading(DefaultCount, [WarnRange])
        else CountReading(n, [])
  }

  /** The numbered article blocks, numbering from `first`. */
  function Listing(articles: seq<Article>, first: nat): (r: seq<Event>)
    ensures |r| == |articles|
    ensures forall i :: 0 <= i < |articles| ==> r[i] == ShowArticle(first + i, articles[i])
    ensures forall e :: e in r ==> e.ShowArticle?
  {
    if articles == [] then []
    else [ShowArticle(first, articles[0])] + Listing(articles[1..], first + 1)
  }

  /**
   What one fetch result makes the shell print: the summary (total, number
   fetched, unique sources) and every article in fetched order numbered from
   1, or a single "no articles" message.
   */
  function Report(data: Option<SearchResult>): (r: seq<Event>)
    ensures |r| >= 1
    ensures forall e :: e in r ==> e.NoResults? || e.ShowResults? || e.ShowArticle?
    ensures r == [NoResults] <==> data.None? || data.value.articles == []
    ensures data.Some? && data.value.articles != [] ==>
      && |r| == |data.value.articles| + 1
      && r[0] == ShowResults(data.value.totalResults, |data.value.articles|,
                             GetArticleSources(Some(data.value.articles)))
      && forall i :: 0 <= i < |data.value.articles| ==>
           r[i + 1] == ShowArticle(i + 1, data.value.articles[i])
  {
    match data
    case None => [NoResults]
    case Some(result) =>
      if result.articles == [] then [NoResults]
      else
        [ShowResults(result.totalResults, |result.articles|, GetArticleSources(Some(result.articles)))]
        + Listing(result.articles, 1)
  }

  /**
   The network call: given how many fetches came before, the topic and the
   count, the data `fetch_news` returned, or `None` for its error paths.
   */
  type Fetcher = (nat, string, int) -> Option<SearchResult>

  function FetchCount(es: seq<Event>): nat
  {
    if es == [] then 0 else (if es[0].Fetch? then 1 else 0) + FetchCount(es[1..])
  }

  function SeparatorCount(es: seq<Event>): nat
  {
    if es == [] then 0 else (if es[0] == Separator then 1 else 0) + SeparatorCount(es[1..])
  }

  lemma {:induction false} CountsOfConcat(a: seq<Event>, b: seq<Event>)
    ensures FetchCount(a + b) == FetchCount(a) + FetchCount(b)
    ensures SeparatorCount(a + b) == SeparatorCount(a) + SeparatorCount(b)
    decreases |a|
  {
    if a == [] {
      assert a + b == b;
    } else {
      assert (a + b)[0] == a[0];
      assert (a + b)[1..] == a[1..] + b;
      CountsOfConcat(a[1..], b);
    }
  }

  lemma {:induction false} NoFetchOrSeparator(es: seq<Event>)
    requires forall e :: e in es ==> !e.Fetch? && e != Separator
    ensures FetchCount(es) == 0 && SeparatorCount(es) == 0
    decreases |es|
  {
    if es != [] {
      NoFetchOrSeparator(es[1..]);
    }
  }

  /**
   The events of a turn that got past the topic checks: the count warning if
   any, the one fetch, the report of its result and the separator.
   */
  function FetchTurn(topic: string, countLine: string, fetch: Fetcher, fetches: nat): (es: seq<Event>)
    ensures |es| >= 3 && es[|es| - 1] == Separator
    ensures Quit !in es
    ensures forall e :: e in es && e.Fetch? ==> e == Fetch(topic, NormaliseCount(countLine).count)
  {
    var c := NormaliseCount(countLine);
    var report := Report(fetch(fetches, topic, c.count));
    TurnShape(c.warnings, Fetch(topic, c.count), report);
    c.warnings + [Fetch(topic, c.count)] + report + [Separator]
  }

  /** Warnings, one fetch, a report and the separator: no quit, and the only fetch is `f`. */
  lemma TurnShape(warnings: seq<Event>, f: Event, report: seq<Event>)
    requires forall e :: e in warnings ==> e == WarnRange || e == WarnInvalid
    requires f.Fetch?
    requires |report| >= 1 && forall e :: e in report ==> e.NoResults? || e.ShowResults? || e.ShowArticle?
    ensures var es := warnings + [f] + report + [Separator];
            && |es| >= 3 && es[|es| - 1] == Separator
            && Quit !in es
            && forall e :: e in es && e.Fetch? ==> e == f
  {
  }

  /** A fetching turn prints exactly one fetch and one separator. */
  lemma FetchTurnCounts(topic: string, countLine: string, fetch: Fetcher, fetches: nat)
    ensures FetchCount(FetchTurn(topic, countLine, fetch, fetches)) == 1
    ensures SeparatorCount(FetchTurn(topic, countLine, fetch, fetches)) == 1
  {
    var c := NormaliseCount(countLine);
    var report := Report(fetch(fetches, topic, c.count));
    var f := [Fetch(topic, c.count)];
    NoFetchOrSeparator(c.warnings);
    NoFetchOrSeparator(report);
    CountsOfConcat(c.warnings, f);
    CountsOfConcat(c.warnings + f, report);
    CountsOfConcat(c.warnings + f + report, [Separator]);
  }


  datatype Next = Continue | Stop

  /** One pass of the loop: what it printed, how many lines it read, and whether it loops. */
  datatype Turn = Turn(events: seq<Event>, consumed: nat, next: Next)

  /**
   One pass of the loop body over the remaining input lines. Running out of
   input at either prompt ends the session with nothing more printed.
   */
  function Step(lines: seq<string>, fetch: Fetcher, fetches: nat): (t: Turn)
    ensures t.consumed <= |lines|
    ensures t.next == Continue ==> 0 < t.consumed <= 2
    ensures (|lines| > 0 && IsQuitCommand(Strip(lines[0]))) <==> t.events == [Quit]
    ensures (|lines| > 0 && IsQuitCommand(Strip(lines[0]))) ==> t == Turn([Quit], 1, Stop)
    ensures (|lines| > 0 && Strip(lines[0]) == []) ==> t == Turn([WarnEmptyTopic], 1, Continue)
    ensures t.next == Stop <==> (|lines| == 0 || IsQuitCommand(Strip(lines[0]))
                                 || (|lines| == 1 && Strip(lines[0]) != []))
    ensures t.consumed == 2 <==> (|lines| > 0 && t.next == Continue && Strip(lines[0]) != [])
    ensures t.consumed == 2 ==> |t.events| >= 3 && t.events[|t.events| - 1] == Separator
    ensures t.consumed == 2 ==> |lines| >= 2 && t.events == FetchTurn(Strip(lines[0]), lines[1], fetch, fetches)
  {
    if |lines| == 0 then Turn([], 0, Stop)
    else
      var topic := Strip(lines[0]);
      if IsQuitCommand(topic) then Turn([Quit], 1, Stop)
      else if topic == [] then Turn([WarnEmptyTopic], 1, Continue)
      else if |lines| == 1 then Turn([], 1, Stop)
      else Turn(FetchTurn(topic, lines[1], fetch, fetches), 2, Continue)
  }

  /**
   The whole session on a script of input lines: the turns' events in
   order, until a quit command or the end of input.
   */
  function Run(lines: seq<string>, fetch: Fetcher, fetches: nat): seq<Event>
    decreases |lines|
  {
    var t := Step(lines, fetch, fetches);
    if t.next == Stop then t.events
    else t.events + Run(lines[t.consumed..], fetch, if t.consumed == 2 then fetches + 1 else fetches)
  }

  /** How `Run` unfolds by one turn, case by case. */
  lemma RunCases(lines: seq<string>, fetch: Fetcher, fetches: nat)
    ensures |lines| == 0 ==> Run(lines, fetch, fetches) == []
    ensures |lines| > 0 && IsQuitCommand(Strip(lines[0])) ==> Run(lines, fetch, fetches) == [Quit]
    ensures |lines| > 0 && !IsQuitCommand(Strip(lines[0])) && Strip(lines[0]) == [] ==>
              Run(lines, fetch, fetches) == [WarnEmptyTopic] + Run(lines[1..], fetch, fetches)
    ensures |lines| == 1 && !IsQuitCommand(Strip(lines[0])) && Strip(lines[0]) != [] ==>
              Run(lines, fetch, fetches) == []
    ensures |lines| >= 2 && !IsQuitCommand(Strip(lines[0])) && Strip(lines[0]) != [] ==>
              Run(lines, fetch, fetches)
                == FetchTurn(Strip(lines[0]), lines[1], fetch, fetches) + Run(lines[2..], fetch, fetches + 1)
  {
  }

  /** A quit command ends the session; the lines after it are never read. */
  lemma QuitEndsRun(line: string, rest: seq<string>, fetch: Fetcher, fetches: nat)
    requires IsQuitCommand(Strip(line))
    ensures Run([line] + rest, fetch, fetches) == [Quit]
  {
  }

  /** A blank topic warns and re-prompts, reading no count and fetching nothing. */
  lemma BlankTopicReprompts(line: string, rest: seq<string>, fetch: Fetcher, fetches: nat)
    requires AllSpace(line)
    ensures Run([line] + rest, fetch, fetches) == [WarnEmptyTopic] + Run(rest, fetch, fetches)
  {
    assert ([line] + rest)[1..] == rest;
  }

  /**
   A turn with a real topic reads the count line, warns if the count was
   replaced, fetches once, reports, prints the separator and loops.
   */
  lemma FetchingTurn(topicLine: string, countLine: string, rest: seq<string>,
                     fetch: Fetcher, fetches: nat)
    requires Strip(topicLine) != [] && !IsQuitCommand(Strip(topicLine))
    ensures var topic := Strip(topicLine);
            var c := NormaliseCount(countLine);
            Run([topicLine, countLine] + rest, fetch, fetches)
              == c.warnings + [Fetch(topic, c.count)] + Report(fetch(fetches, topic, c.count))
                 + [Separator] + Run(rest, fetch, fetches + 1)
  {
    assert ([topicLine, countLine] + rest)[2..] == rest;
  }

  /** The query of a `Fetch` event is one the shell could have sent. */
  predicate ValidQuery(topic: string, count: int)
  {
    topic != [] && Strip(topic) == topic && !IsQuitCommand(topic) && MinCount <= count <= MaxCount
  }

  /** Every fetch asks for a non-empty, stripped, non-quit topic and a count in 1..10. */
  lemma {:induction false} FetchesAreValid(lines: seq<string>, fetch: Fetcher, fetches: nat)
    ensures forall e :: e in Run(lines, fetch, fetches) && e.Fetch? ==> ValidQuery(e.topic, e.count)
    decreases |lines|
  {
    var t := Step(lines, fetch, fetches);
    if t.consumed == 2 {
      StripIdempotent(lines[0]);
    }
    if t.next == Continue {
      var more := if t.consumed == 2 then fetches + 1 else fetches;
      FetchesAreValid(lines[t.consumed..], fetch, more);
    }
  }

  /** A `Quit` event, if any, is the last thing the session shows. */
  lemma {:induction false} QuitOnlyAtEnd(lines: seq<string>, fetch: Fetcher, fetches: nat)
    ensures forall i :: 0 <= i < |Run(lines, fetch, fetches)| && Run(lines, fetch, fetches)[i] == Quit
                        ==> i == |Run(lines, fetch, fetches)| - 1
    decreases |lines|
  {
    var t := Step(lines, fetch, fetches);
    if t.next == Continue {
      var more := if t.consumed == 2 then fetches + 1 else fetches;
      QuitOnlyAtEnd(lines[t.consumed..], fetch, more);
      assert Quit !in t.events;
      QuitLastAppend(t.events, Run(lines[t.consumed..], fetch, more));
    }
  }

  /** Events without a farewell, then events whose farewell is last: the farewell is still last. */
  lemma QuitLastAppend(a: seq<Event>, b: seq<Event>)
    requires Quit !in a
    requires forall i :: 0 <= i < |b| && b[i] == Quit ==> i == |b| - 1
    ensures forall i :: 0 <= i < |a + b| && (a + b)[i] == Quit ==> i == |a + b| - 1
  {
    assert forall k :: 0 <= k < |a| ==> (a + b)[k] == a[k] != Quit;
    forall i | 0 <= i < |a + b| && (a + b)[i] == Quit
      ensures i == |a + b| - 1
    {
      assert i >= |a|;
      assert b[i - |a|] == Quit;
    }
  }

  /** Each fetch is closed by exactly one separator, and no separator is printed otherwise. */
  lemma {:induction false} SeparatorPerFetch(lines: seq<string>, fetch: Fetcher, fetches: nat)
    ensures FetchCount(Run(lines, fetch, fetches)) == SeparatorCount(Run(lines, fetch, fetches))
    decreases |lines|
  {
    var t := Step(lines, fetch, fetches);
    if t.consumed == 2 {
      FetchTurnCounts(Strip(lines[0]), lines[1], fetch, fetches);
    } else {
      NoFetchOrSeparator(t.events);
    }
    if t.next == Continue {
      var more := if t.consumed == 2 then fetches + 1 else fetches;
      SeparatorPerFetch(lines[t.consumed..], fetch, more);
      CountsOfConcat(t.events, Run(lines[t.consumed..], fetch, more));
    }
  }

  /**
   A count given as `str(v)`, padded with any whitespace, is read back as `v`
   when in range, draws the range warning otherwise, and is an invalid number
   when it has more digits than `int()` converts.
   */
  lemma CountOfLiteral(pre: string, v: int, post: string)
    requires AllSpace(pre) && AllSpace(post)
    ensures MinCount <= v <= MaxCount ==> NormaliseCount(pre + ShowInt(v) + post) == CountReading(v, [])
    ensures !(MinCount <= v <= MaxCount) && |ShowNat(Magnitude(v))| <= MaxStrDigits ==>
              NormaliseCount(pre + ShowInt(v) + post) == CountReading(DefaultCount, [WarnRange])
    ensures |ShowNat(Magnitude(v))| > MaxStrDigits ==>
              NormaliseCount(pre + ShowInt(v) + post) == CountReading(DefaultCount, [WarnInvalid])
  {
    var s := ShowInt(v);
    assert !IsSpace(s[0]) && !IsSpace(s[|s| - 1]);
    StripPadded(pre, s, post);
    ParseShow(v);
    if MinCount <= v <= MaxCount {
      assert |ShowNat(v / 10)| == 1;
    }
  }

  /** A count line of more digits than `int()` converts is an invalid number, whatever its value. */
  lemma LongCountInvalid(line: string)
    requires AllDigits(line) && |line| > MaxStrDigits
    ensures NormaliseCount(line) == CountReading(DefaultCount, [WarnInvalid])
  {
    assert !IsSpace(line[0]) && !IsSpace(line[|line| - 1]);
    StripTrimmed(line);
  }

  /** Regrouping the trace printed so far with the turn just taken and the rest of the session. */
  lemma AppendAssoc(a: seq<Event>, b: seq<Event>, c: seq<Event>)
    ensures (a + b) + c == a + (b + c)
  {
  }

  /**
   `interactive_search` as the source writes it: a `while True` loop that
   breaks on a quit command and continues past a blank topic. Running out of
   input, the `EOFError` the source does not catch, returns at once. Produces
   the same trace as `Run`.
   */
  method InteractiveSearch(lines: seq<string>, fetch: Fetcher) returns (trace: seq<Event>)
    ensures trace == Run(lines, fetch, 0)
  {
    trace := [];
    var pos := 0;
    var fetches: nat := 0;
    assert lines[0..] == lines;
    while true
      invariant 0 <= pos <= |lines|
      invariant trace + Run(lines[pos..], fetch, fetches) == Run(lines, fetch, 0)
      decreases |lines| - pos
    {
      ghost var rest := lines[pos..];
      RunCases(rest, fetch, fetches);
      if pos == |lines| {
        assert trace == Run(lines, fetch, 0);
        return;
      }
      assert rest[0] == lines[pos];
      var topic := Strip(lines[pos]);
      if IsQuitCommand(topic) {
        trace := trace + [Quit];
        break;
      }
      if topic == [] {
        assert rest[1..] == lines[pos + 1..];
        ghost var later := Run(lines[pos + 1..], fetch, fetches);
        assert Run(rest, fetch, fetches) == [WarnEmptyTopic] + later;
        AppendAssoc(trace, [WarnEmptyTopic], later);
        trace := trace + [WarnEmptyTopic];
        pos := pos + 1;
        continue;
      }
      if pos + 1 == |lines| {
        assert trace == Run(lines, fetch, 0);
        return;
      }
      assert rest[1] == lines[pos + 1] && rest[2..] == lines[pos + 2..];
      var events := FetchTurn(topic, lines[pos + 1], fetch, fetches);
      ghost var later := Run(lines[pos + 2..], fetch, fetches + 1);
      assert Run(rest, fetch, fetches) == events + later;
      AppendAssoc(trace, events, later);
      trace := trace + events;
      pos := pos + 2;
      fetches := fetches + 1;
    }
    assert trace == Run(lines, fetch, 0);
  }
}

=== FILE: strings.dfy ===
/**
 Python's `str.strip()` with no argument and `str.lower()`, as the shell
 applies them to each line it reads.
 */
module Strings {

  /**
   `str.isspace()` for one character: the code points Python treats as
   whitespace (tab to carriage return, the four separators 0x1C-0x1F, space,
   next-line, no-break space and the Unicode space separators).
   */
  predicate IsSpace(c: char)
  {
    var k := c as int;
    || 0x09 <= k <= 0x0D
    || 0x1C <= k <= 0x20
    || k == 0x85 || k == 0xA0 || k == 0x1680
    || 0x2000 <= k <= 0x200A
    || k == 0x2028 || k == 0x2029 || k == 0x202F || k == 0x205F || k == 0x3000
  }

  predicate AllSpace(s: string)
  {
    forall k :: 0 <= k < |s| ==> IsSpace(s[k])
  }

  /** Every character of `s` from index `lo` up to (not including) `hi` is whitespace. */
  predicate SpaceBetween(s: string, lo: nat, hi: nat)
    requires lo <= hi <= |s|
  {
    forall k :: lo <= k < hi ==> IsSpace(s[k])
  }

  /** Neither starts nor ends with whitespace. */
  predicate Trimmed(s: string)
  {
    s == [] || (!IsSpace(s[0]) && !IsSpace(s[|s| - 1]))
  }

  /** The first index at or after `i` that does not hold whitespace (or `|s|`). */
  function LeftEdge(s: string, i: nat): (j: nat)
    requires i <= |s|
    ensures i <= j <= |s| && SpaceBetween(s, i, j)
    ensures j < |s| ==> !IsSpace(s[j])
    decreases |s| - i
  {
    if i < |s| && IsSpace(s[i]) then LeftEdge(s, i + 1) else i
  }

  /** The end of the last non-whitespace character before `j`, looking no further left than `lo`. */
  function RightEdge(s: string, lo: nat, j: nat): (k: nat)
    requires lo <= j <= |s|
    ensures lo <= k <= j && SpaceBetween(s, k, j)
    ensures k > lo ==> !IsSpace(s[k - 1])
    decreases j
  {
    if j > lo && IsSpace(s[j - 1]) then RightEdge(s, lo, j - 1) else j
  }

  /**
   `s.strip()`: the infix of `s` left once leading and trailing whitespace
   is removed. A line made only of whitespace strips to the empty string.
   */
  function Strip(s: string): (r: string)
    ensures Trimmed(r)
    ensures |r| <= |s|
    ensures exists i :: 0 <= i <= |s| - |r| && r == s[i..i + |r|]
              && SpaceBetween(s, 0, i) && SpaceBetween(s, i + |r|, |s|)
    ensures r == [] <==> AllSpace(s)
  {
    var a := LeftEdge(s, 0);
    var b := RightEdge(s, a, |s|);
    assert a < b ==> s[a..b][0] == s[a] && s[a..b][b - a - 1] == s[b - 1];
    assert a < |s| ==> !IsSpace(s[a]);
    s[a..b]
  }

  /** Whitespace around an already stripped string is exactly what `strip` removes. */
  lemma StripPadded(pre: string, t: string, post: string)
    requires AllSpace(pre) && AllSpace(post) && Trimmed(t)
    ensures Strip(pre + t + post) == t
  {
    var s := pre + t + post;
    var e := |pre| + |t|;
    PaddedShape(pre, t, post);
    if t == [] {
      assert AllSpace(s);
    } else {
      assert s[|pre|] == s[|pre|..e][0] == t[0];
      assert s[e - 1] == s[|pre|..e][|t| - 1] == t[|t| - 1];
      StripSpan(s, |pre|, e);
    }
  }

  lemma PaddedShape(pre: string, t: string, post: string)
    requires AllSpace(pre) && AllSpace(post)
    ensures var s := pre + t + post;
            SpaceBetween(s, 0, |pre|) && SpaceBetween(s, |pre| + |t|, |s|)
            && s[|pre|..|pre| + |t|] == t
  {
    var s := pre + t + post;
    var e := |pre| + |t|;
    forall k | 0 <= k < |pre|
      ensures IsSpace(s[k])
    {
      assert s[k] == pre[k];
    }
    forall k | e <= k < |s|
      ensures IsSpace(s[k])
    {
      assert s[k] == post[k - e];
    }
  }

  /**
   A span whose ends are not whitespace, with only whitespace outside it,
   is what `strip` keeps.
   */
  lemma StripSpan(s: string, lo: nat, hi: nat)
    requires lo < hi <= |s|
    requires !IsSpace(s[lo]) && !IsSpace(s[hi - 1])
    requires SpaceBetween(s, 0, lo) && SpaceBetween(s, hi, |s|)
    ensures Strip(s) == s[lo..hi]
  {
    var a := LeftEdge(s, 0);
    assert a == lo;
    var b := RightEdge(s, a, |s|);
    assert b == hi;
  }

  /** A string that is already stripped is left alone. */
  lemma StripTrimmed(t: string)
    requires Trimmed(t)
    ensures Strip(t) == t
  {
    StripPadded([], t, []);
    assert [] + t + [] == t;
  }

  /** Stripping twice is stripping once. */
  lemma StripIdempotent(s: string)
    ensures Strip(Strip(s)) == Strip(s)
  {
    StripTrimmed(Strip(s));
  }

  predicate IsUpper(c: char)
  {
    'A' <= c <= 'Z'
  }

  /**
   One character read without regard to ASCII case: the same character, or
   an ASCII capital and its small letter, which lies 32 code points above it.
   */
  predicate SameLetterIgnoringCase(a: char, b: char)
  {
    || a == b
    || (IsUpper(a) && b as int == a as int + 32)
    || (IsUpper(b) && a as int == b as int + 32)
  }

  /** Equal lengths, and equal character by character up to ASCII case. */
  predicate SameIgnoringAsciiCase(s: string, t: string)
  {
    |s| == |t| && forall k :: 0 <= k < |s| ==> SameLetterIgnoringCase(s[k], t[k])
  }

  /** `str.lower()` on one character, for ASCII letters. */
  function LowerChar(c: char): (r: char)
    ensures IsUpper(c) ==> r as int == c as int + 32
    ensures !IsUpper(c) ==> r == c
    ensures !IsUpper(r)
  {
    if IsUpper(c) then (c as int - 'A' as int + 'a' as int) as char else c
  }

  /**
   `str.lower()` for ASCII letters: no capital is left, and the result is the
   input up to case.
   */
  function Lower(s: string): (r: string)
    ensures |r| == |s|
    ensures forall k :: 0 <= k < |s| ==> r[k] == LowerChar(s[k])
    ensures forall k :: 0 <= k < |r| ==> !IsUpper(r[k])
    ensures SameIgnoringAsciiCase(s, r)
  {
    seq(|s|, k requires 0 <= k < |s| => LowerChar(s[k]))
  }

  /** Two strings lower to the same string exactly when they agree up to ASCII case. */
  lemma LowerIgnoresCase(s: string, t: string)
    ensures Lower(s) == Lower(t) <==> SameIgnoringAsciiCase(s, t)
  {
    if SameIgnoringAsciiCase(s, t) {
      forall k | 0 <= k < |s|
        ensures Lower(s)[k] == Lower(t)[k]
      {
        assert SameLetterIgnoringCase(s[k], t[k]);
      }
    }
    if Lower(s) == Lower(t) {
      forall k | 0 <= k < |s|
        ensures SameLetterIgnoringCase(s[k], t[k])
      {
        assert LowerChar(s[k]) == Lower(s)[k] == Lower(t)[k] == LowerChar(t[k]);
      }
    }
  }

  /** A string without ASCII capitals is its own lowering. */
  lemma LowerFixesLowercase(w: string)
    requires forall k :: 0 <= k < |w| ==> !IsUpper(w[k])
    ensures Lower(w) == w
  {
  }
}

=== FILE: wrappers.dfy ===
/** The optional value used for Python's `None`-or-value returns. */
module Wrappers {

  datatype Option<+T> = None | Some(value: T)
}
